=== FILE: README.md ===
# Branch performance analysis — a Dafny model of its core

The analysis reads one spreadsheet per branch company, data type and month,
integrates the financial sheets (`财务`) and the operational sheets (`业务`)
into one row per (company, month), derives revenue growth, customer
acquisition cost (CAC), retention, gross margin, lifetime value (LTV) and the
LTV/CAC ratio, and rates each row A to D from two of those metrics.

This project models that core in Dafny and proves its properties:

- `FileNames` (`filenames.dfy`): which file names the loader accepts, and the
  (company, data type, date) key it reads from them. Python's
  `os.path.splitext` and `str.split` are modelled exactly on bare names.
- `Order` (`order.dfy`): the (company, period) sort order, with company
  names compared as Python compares strings.
- `Integration` (`integration.dfy`): the split by data type, the projection
  of each side onto its five indicators, the outer join on
  (company, period) and the sort.
- `Kpis` (`kpis.dfy`): the per-company previous-row lookup
  (`groupby('公司').shift(1)`) and the six KPI formulas, with every value an
  `Option<real>` whose `None` plays the part of pandas' NaN.
- `Scoring` (`scoring.dfy`): points per metric, the total, the A/B/C/D
  breakpoints and the gate that scores a row only when both metrics exist.
- `Pipeline` (`pipeline.dfy`): the three steps composed.
- `Columns` (`columns.dfy`): the column names pandas gives the merged table,
  as the code builds it and as it was evidently meant (see Findings).
- `Options` (`options.dfy`): `Option` and the NaN-propagating arithmetic.

The code applies no clamps, floors or division guards to the KPI formulas,
awards 0 points below the `mid` threshold and places the C breakpoint at 2.
The model applies none either, except that a zero divisor gives `None` (see
`Options.Div` under Left out).

## Model

| member | source | states |
|---|---|---|
| FileNames.SplitExt | main.py:90 | the root and the extension concatenate back to the name; the extension is empty or one dot followed by no dot; it is non-empty exactly when the name has a dot with a non-dot character somewhere before the last one |
| FileNames.Split | main.py:90 | `str.split('_')` yields at least one piece, no piece contains `_`, and joining the pieces with `_` gives back the input |
| FileNames.SplitCount | main.py:90-91 | there is exactly one piece more than there are `_` characters, so a stem is accepted exactly when it has two `_` |
| FileNames.SplitJoin | main.py:90 | splitting undoes joining whenever no piece contains `_` |
| FileNames.ParseFileName | main.py:89-94 | an accepted name ends in `.xlsx` and yields three pieces free of `_`; `ParseFileNameSpec` and the two round trips below say exactly which names are accepted and which key each yields |
| FileNames.ParseFileNameSpec | main.py:89-94 | a name is accepted if and only if it ends in `.xlsx` and the text before `.xlsx` splits into exactly three pieces; those pieces are company, data type and date in that order |
| FileNames.FileNameRoundTrip | main.py:89-94 | every key whose pieces contain no `_` is recovered from its file name `company_type_date.xlsx` |
| FileNames.ParsedFileNameRoundTrip | main.py:89-94 | every accepted name is exactly the name formatted from the key read from it |
| FileNames.AcceptedKeys | main.py:88-94 | the files read are exactly those whose names are accepted, each contributing its key |
| Order.KeyLessStrictTotal | main.py:127 | the (company, period) order is irreflexive, transitive, total and asymmetric |
| Order.SortKeys | main.py:127 | sorting yields a strictly ascending sequence with exactly the keys of its input |
| Order.SortedUnique | main.py:127 | two strictly ascending sequences with the same keys are equal, so the sorted result does not depend on the input order |
| Integration.ProjectionsKeepOwnVocabulary | main.py:122-125 | each side of the join reads only its own five indicators: dropping every other indicator from a sheet changes nothing, a sheet listing only financial indicators gives no operational column, and vice versa |
| Integration.RecordKeys | main.py:122-125 | the join keys are exactly the (company, period) pairs of the financial and the operational records; other data types take no part |
| Integration.Integrate | main.py:122-127 | the joined table is strictly ascending by (company, period), and a key appears in it if and only if a financial or an operational record has it (outer join) |
| Integration.IntegratedFields | main.py:122-125 | each joined row carries the five indicators of the financial record with its key and the five of the operational record with its key, and all-`None` on a side that has no record for that key |
| Integration.IntegrateIgnoresListingOrder | main.py:88-127 | any permutation of the records, as a different directory listing order would give, integrates to the same table |
| Kpis.LastOfCompany | main.py:133 | the group predecessor is the latest earlier row of the same company, with no row of that company in between, and it is absent exactly when no earlier row has that company |
| Kpis.PriorOnSortedRows | main.py:127-140 | in the sorted table a row's group predecessor is the row directly above when that row has the same company, and none otherwise |
| Kpis.PriorIndex | main.py:133 | an earlier same-company row with no same-company row after it is the one `shift(1)` reads |
| Kpis.PriorColumns | main.py:133-140 | previous revenue and previous ending users are those of the closest earlier row of the same company, and undefined for a company's first row |
| Kpis.Growth | main.py:134 | growth is defined exactly when revenue and previous revenue are defined and previous revenue is non-zero, and then previous revenue × (1 + growth) = revenue |
| Kpis.Cac | main.py:137 | CAC is defined exactly when marketing spend and new users are defined and new users are non-zero, and then CAC × new users = marketing spend |
| Kpis.Retention | main.py:142 | retention is defined exactly when ending users, new users and previous ending users are defined and the latter non-zero, and then retention × previous ending users + new users = ending users |
| Kpis.Margin | main.py:146 | margin is defined exactly when revenue and cost are defined and revenue is non-zero, and then revenue × (1 − margin) = cost |
| Kpis.Ltv | main.py:148 | LTV is defined exactly when revenue, paying users, margin and retention are defined, paying users non-zero and retention not 1, and then LTV × paying users × (1 − retention) = revenue × margin |
| Kpis.LtvCac | main.py:151 | the ratio is defined exactly when LTV and CAC are defined and CAC is non-zero, and then ratio × CAC = LTV |
| Kpis.Derive | main.py:134-151 | the derived columns of a row are `Growth`, `Cac`, `Retention`, `Margin`, `Ltv` and `LtvCac` of its indicators and the predecessor's revenue and ending users, LTV taking the row's margin and retention and the ratio the row's LTV and CAC |
| Kpis.CalculateKpis | main.py:130-151 | the KPI table has one row per integrated row, in the same order, each keeping the integrated columns unchanged, and each derived column is its formula (`Growth` … `LtvCac`) of that row's indicators and predecessor columns, whose meaning the formula rows state |
| Kpis.FirstPeriodUndefined | main.py:133-151 | a company's first row has undefined growth, retention, LTV and LTV/CAC |
| Kpis.DeriveKpis | main.py:130-151 | one pass over the sorted table that remembers only the previous row computes the same KPI table as the group-wise shift |
| Kpis.GrowthExample | main.py:133-134 | revenue 100000, 120000, 150000 in three consecutive months gives growth undefined, 0.2, 0.25 |
| Options.Div | main.py:134-151 | a quotient is defined exactly when both operands are and the divisor is non-zero, and then quotient × divisor = dividend |
| Scoring.Points | main.py:165-172 | a metric earns 0, 3 or 5 points |
| Scoring.PointsThresholds | main.py:165-172 | 5 points exactly above `high`, 3 exactly above `mid` and not above `high`, 0 otherwise |
| Scoring.PointsMonotone | main.py:165-172 | a larger metric value never earns fewer points, whatever the thresholds |
| Scoring.Total | main.py:161-172 | the score of a row is one of 0, 3, 5, 6, 8, 10 and at most 10 |
| Scoring.RatingOf | main.py:175-178 | A if and only if the score is at least 8, B for 5 to 7, C for 2 to 4, D below 2 |
| Scoring.RatingMonotone | main.py:175-178 | a higher score never gets a lower rating |
| Scoring.ScoreRow | main.py:161-185 | a row gets a score and a rating if and only if growth and LTV/CAC are both defined; the score is then the growth points plus the LTV/CAC points, at most 10, and the rating is the breakpoint rating of the score; the KPI columns are unchanged |
| Scoring.BetterMetricsNeverRateLower | main.py:161-185 | a row with higher-or-equal growth and LTV/CAC never has a lower score or rating |
| Scoring.CalculateScores | main.py:161-185 | the scored table keeps every KPI row in order; a row is scored exactly when growth and LTV/CAC are defined, with the sum of their points and the breakpoint rating of that sum |
| Scoring.AsWrittenApplyShape | main.py:180-185 | `apply` as written returns two columns exactly when the first row passes the gate, and otherwise one column with a cell per row |
| Scoring.DefaultRulesExample | main.py:267-270 | with thresholds 0.15/0.05 and 3/1, growth 0.2 with ratio 2 scores 8 (A) and growth 0.1 with ratio 0.5 scores 3 (C) |
| Pipeline.ScoredTable | main.py:122-185 | the scored table holds one row per (company, period) of the financial and operational records, in strictly ascending (company, period) order; each row is the KPI row of its integrated row, scored by `ScoreRow` under the given rules |
| Pipeline.Analyze | main.py:107-113 | no table at all when no file was accepted, since concatenating no sheets fails and the run stops; otherwise exactly `ScoredTable` of the records under the given rules, sorted and with exactly the records' keys |
| Pipeline.FirstPeriodNeverScored | main.py:133-185 | the earliest row of each company has neither score nor rating |
| Pipeline.AsWrittenScoresNotAssignable | main.py:183-185 | as written, the scores can be stored in the two columns only when the table has exactly two rows, because its first row is never scored |
| Columns.MergeColumns | main.py:125 | the merge keeps the key columns once, a column of one side only under its own name, and a column of both sides only as `<name>_x` and `<name>_y`, and has no other column |
| Columns.Indicators | main.py:107 | the concatenated table has a column for every indicator any sheet lists, and no other indicator column |
| Columns.AsWrittenLosesIndicators | main.py:122-133 | as written, no indicator of either vocabulary survives the merge under its own name; every vocabulary indicator a sheet lists appears only as `<name>_x` and `<name>_y` |
| Columns.AsWrittenExample | main.py:122-133 | with one financial and one operational sheet, the merged table lacks `营业收入` but has `营业收入_x`, while the intended merge keeps `营业收入` |
| Columns.IntendedKeepsIndicators | main.py:122-125 | when each side keeps only its own vocabulary, the merged columns are exactly the join keys plus the listed indicators, unrenamed |

## Left out

- Listing the data directory, reading each workbook with `pd.read_excel`,
  renaming its columns and transposing it into one row, and the
  `try`/`except` around loading (main.py:86-113): I/O. The records are the
  model's input, one per accepted file, with the indicator values as a map.
- A cell that is not a number: pandas would fail in the arithmetic; the
  model's indicator values are reals.
- A sheet listing the same indicator twice, and two records with the same
  (company, period, data type): pandas would produce repeated columns or a
  cross product of rows. `Integration.UniqueKeys` is required instead.
- Parsing the date text with `pd.to_datetime` (main.py:126): periods are the
  YYYYMM numbers, whose numeric order is chronological; the model does not
  derive them from the date piece of the file name.
- Options.Div: a zero divisor gives `None`, where the code's float division
  gives an infinity (or a NaN for 0 / 0). `Kpis.Growth`, `Kpis.Cac`,
  `Kpis.Retention`, `Kpis.Margin`, `Kpis.Ltv` and `Kpis.LtvCac` inherit
  this, and so do the rows the code scores while the model does not:
  - previous revenue 0 with revenue not 0: growth is ±inf in the code, and
    the row is scored (5 or 0 growth points);
  - marketing spend 0 with new users not 0: CAC is 0, so LTV/CAC is ±inf
    (NaN only when LTV is 0) and the row earns 5 or 0 LTV/CAC points;
  - new users 0 with marketing spend not 0: CAC is inf, so LTV/CAC is
    LTV / inf = 0 and the row earns 0 LTV/CAC points;
  - previous ending users 0: retention is ±inf, the lifetime
    1 / (1 - retention) is 0, so LTV and LTV/CAC are 0 and the row earns 0
    LTV/CAC points;
  - paying users 0, revenue 0 or retention exactly 1: LTV is infinite or
    NaN, and LTV/CAC with it.
  Rounding is not modelled: the formulas are exact over the reals.
- A table in which no sheet lists revenue (or ending users): pandas has no
  such column and line 133 (or 140) raises `KeyError`; the model reads the
  missing column as undefined throughout.
- `create_dummy_data` (main.py:36-79): synthetic data and file writes.
- `generate_report` (main.py:188-254): charts, the workbook and its dated
  file name.
- `main` (main.py:256-289): configuration wiring, apart from the threshold
  values, which `Scoring.DefaultRules` holds.
- The rating labels `A[优秀]` … `D[危险]` are modelled as the constructors
  `A` … `D`.
- FileNames.AcceptedKeys: states which keys are read, not their order;
  `Integration.IntegrateIgnoresListingOrder` shows the order does not
  matter downstream.

## Findings

| source | as written | input that shows it | evidently intended | confidence | as-written member | corrected member |
|---|---|---|---|---|---|---|
| main.py:122-133 | `pd.concat` gives every row the union of all indicator columns; both selections drop only `数据类型`, so `pd.merge` on (`公司`, `日期`) finds every indicator on both sides and renames it to `<name>_x` and `<name>_y`; line 133 then reads a column `营业收入` that does not exist | one financial sheet and one operational sheet, each listing its five indicators (the layout `create_dummy_data` writes) | each side keeps only its own indicators, so the merged table has `营业收入`, `月末用户数` and the rest under their own names | high; not executed | Columns.AsWrittenLosesIndicators | Columns.IntendedKeepsIndicators |

| main.py:183-185 | the lambda returns `pd.Series([score, rating])` for a scored row and the list `[None, None]` for any other; `DataFrame.apply(axis=1)` takes the shape of its result from the first row, which is a company's first period and never scored, so it returns one column of cells, and assigning that to the two columns `综合得分` and `健康度评级` requires the table to have exactly two rows (otherwise pandas' two-column `__setitem__` length check raises `ValueError: Columns must be same length as key`, as pandas 1.5 and later do; with two rows the cells are split across the columns). The defect shows once the merge defect of main.py:122-133 is corrected, since before that line 133 fails first; `Pipeline.AsWrittenScoresNotAssignable` is accordingly stated over the corrected `Integrate` | with the merge corrected, any table of three rows, e.g. one company with three months of data | every row scored or left empty on its own, giving the two columns per row | medium; not executed | Pipeline.AsWrittenScoresNotAssignable | Scoring.CalculateScores |

The rest of the model builds the intended tables: `Integration.Integrate`
projects each side onto its own five indicators before joining, and
`Scoring.CalculateScores` scores row by row.

=== FILE: columns.dfy ===
/** The column names of the merged table, as pandas builds them.

    Every sheet becomes one row whose columns are the sheet's indicators
    plus `公司` (company), `日期` (date) and `数据类型` (data type).
    Concatenating the rows gives a table with the union of all these
    columns. The financial and the operational rows are then selected from
    that table, only the data-type column is dropped, and the two selections
    are merged on (company, date).

    `pd.merge` keeps the key columns once, keeps a column that only one side
    has under its own name, and renames a column both sides have to
    `<name>_x` (left) and `<name>_y` (right). Because both selections carry
    every column of the concatenated table, every indicator ends up renamed,
    and the KPI step's reads of `营业收入` (revenue) and `月末用户数`
    (ending users) find no such column. `AsWrittenMergedColumns` models that;
    `IntendedMergedColumns` restricts each side to its own vocabulary first,
    which is the table the `Integration` module builds.
 */
module Columns {
  import opened Integration

  const CompanyColumn: string := "公司"
  const DateColumn: string := "日期"
  const TypeColumn: string := "数据类型"

  const LeftSuffix: string := "_x"
  const RightSuffix: string := "_y"

  const JoinKeys: set<string> := {CompanyColumn, DateColumn}

  /** The indicators of all sheets together. */
  function Indicators(sheets: seq<set<string>>): (cols: set<string>)
    ensures forall c :: c in cols <==> exists i :: 0 <= i < |sheets| && c in sheets[i]
  {
    if |sheets| == 0 then {}
    else
      var rest := Indicators(sheets[1..]);
      assert forall i :: 1 <= i < |sheets| ==> sheets[i] == sheets[1..][i - 1];
      assert forall i :: 0 <= i < |sheets[1..]| ==> sheets[1..][i] == sheets[i + 1];
      sheets[0] + rest
  }

  /** The columns of the concatenated table. */
  function ConcatColumns(sheets: seq<set<string>>): set<string> {
    Indicators(sheets) + {CompanyColumn, DateColumn, TypeColumn}
  }

  /** The columns `pd.merge(left, right, on=keys)` produces. */
  function MergeColumns(left: set<string>, right: set<string>, keys: set<string>): (cols: set<string>)
    ensures keys <= cols
    ensures forall c :: c in left && c !in right && c !in keys ==> c in cols
    ensures forall c :: c in right && c !in left && c !in keys ==> c in cols
    ensures forall c :: c in left && c in right && c !in keys ==>
      c + LeftSuffix in cols && c + RightSuffix in cols
    ensures forall c :: c in cols ==>
      || c in keys || (c in left && c !in right) || (c in right && c !in left)
      || (exists d :: d in left && d in right && d !in keys && c == d + LeftSuffix)
      || (exists d :: d in left && d in right && d !in keys && c == d + RightSuffix)
  {
    var shared := (left * right) - keys;
    keys + (left - right - keys) + (right - left - keys)
      + (set c | c in shared :: c + LeftSuffix)
      + (set c | c in shared :: c + RightSuffix)
  }

  /** The merge as written: both sides keep every column but the type. */
  function AsWrittenMergedColumns(sheets: seq<set<string>>): set<string> {
    var side := ConcatColumns(sheets) - {TypeColumn};
    MergeColumns(side, side, JoinKeys)
  }

  /** The merge as intended: each side keeps only its own vocabulary. */
  function IntendedMergedColumns(sheets: seq<set<string>>): set<string> {
    var all := ConcatColumns(sheets);
    MergeColumns(JoinKeys + (all * FinancialVocabulary), JoinKeys + (all * OperationalVocabulary), JoinKeys)
  }

  /** A name whose last character is neither 'x' nor 'y' is no suffixed
      name. */
  lemma NotSuffixed(v: string, cols: set<string>)
    requires |v| > 0 && v[|v| - 1] != 'x' && v[|v| - 1] != 'y'
    ensures v !in (set c | c in cols :: c + LeftSuffix)
    ensures v !in (set c | c in cols :: c + RightSuffix)
  {
    forall c | c in cols ensures v != c + LeftSuffix && v != c + RightSuffix {
      assert (c + LeftSuffix)[|c| + 1] == 'x';
      assert (c + RightSuffix)[|c| + 1] == 'y';
    }
  }

  /** As written, no indicator of either vocabulary survives the merge under
      its own name, whatever the sheets list; every indicator a sheet lists
      reappears only as `<name>_x` and `<name>_y`. */
  lemma AsWrittenLosesIndicators(sheets: seq<set<string>>)
    ensures forall v :: v in FinancialVocabulary + OperationalVocabulary ==> v !in AsWrittenMergedColumns(sheets)
    ensures forall v :: v in FinancialVocabulary + OperationalVocabulary && v in Indicators(sheets) ==>
      v + LeftSuffix in AsWrittenMergedColumns(sheets) && v + RightSuffix in AsWrittenMergedColumns(sheets)
  {
    var side := ConcatColumns(sheets) - {TypeColumn};
    var shared := (side * side) - JoinKeys;
    forall v | v in FinancialVocabulary + OperationalVocabulary
      ensures v !in AsWrittenMergedColumns(sheets)
    {
      assert v !in JoinKeys;
      assert |v| > 0 && v[|v| - 1] != 'x' && v[|v| - 1] != 'y';
      NotSuffixed(v, shared);
    }
    forall v | v in FinancialVocabulary + OperationalVocabulary && v in Indicators(sheets)
      ensures v + LeftSuffix in AsWrittenMergedColumns(sheets) && v + RightSuffix in AsWrittenMergedColumns(sheets)
    {
      assert v in shared;
    }
  }

  /** The columns the analysis was written against: one sheet of each kind,
      listing its five indicators. */
  lemma AsWrittenExample()
    ensures Revenue !in AsWrittenMergedColumns([FinancialVocabulary, OperationalVocabulary])
    ensures Revenue + LeftSuffix in AsWrittenMergedColumns([FinancialVocabulary, OperationalVocabulary])
    ensures Revenue in IntendedMergedColumns([FinancialVocabulary, OperationalVocabulary])
  {
    AsWrittenLosesIndicators([FinancialVocabulary, OperationalVocabulary]);
    IntendedKeepsIndicators([FinancialVocabulary, OperationalVocabulary]);
    assert Revenue in Indicators([FinancialVocabulary, OperationalVocabulary]) by {
      assert Revenue in [FinancialVocabulary, OperationalVocabulary][0];
    }
  }

  /** The two vocabularies and the three tag columns are pairwise distinct
      names. */
  lemma VocabulariesDisjoint()
    ensures FinancialVocabulary * OperationalVocabulary == {}
    ensures CompanyColumn !in FinancialVocabulary + OperationalVocabulary
    ensures DateColumn !in FinancialVocabulary + OperationalVocabulary
    ensures TypeColumn !in FinancialVocabulary + OperationalVocabulary
  {
    forall v | v in FinancialVocabulary ensures v !in OperationalVocabulary {
      assert v[|v| - 1] in {'入', '本', '用'};
    }
  }

  /** As intended, the merged table has exactly the join keys and, under
      their own names, the vocabulary indicators that some sheet lists. */
  lemma IntendedKeepsIndicators(sheets: seq<set<string>>)
    ensures IntendedMergedColumns(sheets) == JoinKeys + (Indicators(sheets) * (FinancialVocabulary + OperationalVocabulary))
  {
    VocabulariesDisjoint();
    var all := ConcatColumns(sheets);
    var fin, ops := all * FinancialVocabulary, all * OperationalVocabulary;
    assert fin * ops == {};
    var left, right := JoinKeys + fin, JoinKeys + ops;
    var shared := (left * right) - JoinKeys;
    assert shared == {};
    assert (set c | c in shared :: c + LeftSuffix) == {};
    assert (set c | c in shared :: c + RightSuffix) == {};
    assert left - right - JoinKeys == fin;
    assert right - left - JoinKeys == ops;
    assert fin + ops == Indicators(sheets) * (FinancialVocabulary + OperationalVocabulary);
  }
}

=== FILE: filenames.dfy ===
/** Source-file names.

    The loader considers every file of the data directory whose name ends in
    `.xlsx` and whose name, with the extension removed, falls apart at `_`
    into exactly three pieces: company, data type and YYYYMM date, as in
    `公司A_财务_202307.xlsx`. Every other file is skipped.

    The extension is removed the way Python's `os.path.splitext` does it on a
    bare file name: at the last dot, unless everything before that dot is
    itself dots (a hidden-file name such as `.xlsx` has no extension).
    Splitting is Python's `str.split` with an explicit separator, which keeps
    empty pieces.
 */
module FileNames {
  import opened Options

  const Extension: string := ".xlsx"
  const Separator: char := '_'

  /** The three pieces of an accepted file name. */
  datatype FileKey = FileKey(company: string, dataType: string, date: string)

  predicate EndsWith(s: string, suffix: string) {
    |suffix| <= |s| && s[|s| - |suffix|..] == suffix
  }

  predicate AllDots(s: string) {
    forall i :: 0 <= i < |s| ==> s[i] == '.'
  }

  /** Index of the last occurrence of `c` in `s`, if any. */
  function LastIndexOf(s: string, c: char): (r: Option<nat>)
    ensures r.None? <==> c !in s
    ensures r.Some? ==> r.value < |s| && s[r.value] == c && c !in s[r.value + 1..]
  {
    if |s| == 0 then None
    else if s[|s| - 1] == c then Some(|s| - 1)
    else
      var r := LastIndexOf(s[..|s| - 1], c);
      assert s[..|s| - 1] + [s[|s| - 1]] == s;
      if r.Some? then
        assert s[r.value + 1..] == s[..|s| - 1][r.value + 1..] + [s[|s| - 1]];
        r
      else
        r
  }

  /** `os.path.splitext` on a name without directory separators: the pair
      (root, extension). */
  function SplitExt(name: string): (r: (string, string))
    ensures r.0 + r.1 == name
    ensures r.1 == [] || (r.1[0] == '.' && '.' !in r.1[1..])
    ensures r.1 != [] <==> '.' in name && !AllDots(name[..LastIndexOf(name, '.').value])
  {
    var dot := LastIndexOf(name, '.');
    if dot.Some? && !AllDots(name[..dot.value]) then
      assert name[..dot.value] + name[dot.value..] == name;
      (name[..dot.value], name[dot.value..])
    else
      (name, [])
  }

  /** Python's `s.split(sep)`: the pieces between separators, empty pieces
      included. Its inverse is `Join`. */
  function Split(s: string, sep: char): (parts: seq<string>)
    ensures |parts| > 0
    ensures forall i :: 0 <= i < |parts| ==> sep !in parts[i]
    ensures Join(parts, sep) == s
  {
    if |s| == 0 then [""]
    else
      var rest := Split(s[1..], sep);
      assert s == [s[0]] + s[1..];
      if s[0] == sep then
        JoinAfterEmpty(rest, sep);
        [""] + rest
      else
        JoinExtendFirst(s[0], rest, sep);
        [[s[0]] + rest[0]] + rest[1..]
  }

  /** There is one piece more than there are separators. */
  lemma {:induction false} SplitCount(s: string, sep: char)
    ensures |Split(s, sep)| == multiset(s)[sep] + 1
  {
    if |s| > 0 {
      SplitCount(s[1..], sep);
      CountFirst(s, sep);
      var rest := Split(s[1..], sep);
      assert |Split(s, sep)| == |rest| + (if s[0] == sep then 1 else 0);
    }
  }

  lemma CountFirst(s: string, sep: char)
    requires |s| > 0
    ensures multiset(s)[sep] == (if s[0] == sep then 1 else 0) + multiset(s[1..])[sep]
  {
    assert s == [s[0]] + s[1..];
    assert multiset(s) == multiset([s[0]]) + multiset(s[1..]);
  }

  /** Python's `sep.join(parts)`. */
  function Join(parts: seq<string>, sep: char): string {
    if |parts| == 0 then ""
    else if |parts| == 1 then parts[0]
    else parts[0] + [sep] + Join(parts[1..], sep)
  }

  /** An empty first piece contributes only its separator. */
  lemma JoinAfterEmpty(parts: seq<string>, sep: char)
    requires |parts| > 0
    ensures Join([""] + parts, sep) == [sep] + Join(parts, sep)
  {
    assert ([""] + parts)[1..] == parts;
  }

  /** A character prepended to the first piece is prepended to the join. */
  lemma JoinExtendFirst(c: char, parts: seq<string>, sep: char)
    requires |parts| > 0
    ensures Join([[c] + parts[0]] + parts[1..], sep) == [c] + Join(parts, sep)
  {
    var q := [[c] + parts[0]] + parts[1..];
    assert q[1..] == parts[1..];
    if |parts| > 1 {
      assert Join(q, sep) == ([c] + parts[0]) + [sep] + Join(parts[1..], sep);
    }
  }

  /** Splitting after a separator-free first piece yields that piece first. */
  lemma {:induction false} SplitAfterPiece(a: string, sep: char, b: string)
    requires sep !in a
    ensures Split(a + [sep] + b, sep) == [a] + Split(b, sep)
  {
    var s := a + [sep] + b;
    if |a| == 0 {
      assert s == [sep] + b;
      assert s[1..] == b;
    } else {
      assert s[0] == a[0] && s[0] != sep;
      assert s[1..] == a[1..] + [sep] + b;
      var rest := Split(s[1..], sep);
      SplitAfterPiece(a[1..], sep, b);
      assert rest == [a[1..]] + Split(b, sep);
      assert Split(s, sep) == [[s[0]] + rest[0]] + rest[1..];
      assert [a[0]] + a[1..] == a;
    }
  }

  /** `Split` undoes `Join` when no piece contains the separator. */
  lemma {:induction false} SplitJoin(parts: seq<string>, sep: char)
    requires |parts| > 0
    requires forall i :: 0 <= i < |parts| ==> sep !in parts[i]
    ensures Split(Join(parts, sep), sep) == parts
  {
    if |parts| == 1 {
      var p := Split(parts[0], sep);
      SplitCount(parts[0], sep);
      assert multiset(parts[0])[sep] == 0;
      assert |p| == 1;
    } else {
      SplitJoin(parts[1..], sep);
      SplitAfterPiece(parts[0], sep, Join(parts[1..], sep));
      assert [parts[0]] + parts[1..] == parts;
    }
  }

  /** The key of a source file, or None when the loader skips the file. */
  function ParseFileName(name: string): (r: Option<FileKey>)
    ensures r.Some? ==> EndsWith(name, Extension)
    ensures r.Some? ==>
      Separator !in r.value.company && Separator !in r.value.dataType && Separator !in r.value.date
  {
    if EndsWith(name, Extension) then
      var parts := Split(SplitExt(name).0, Separator);
      if |parts| == 3 then Some(FileKey(parts[0], parts[1], parts[2])) else None
    else
      None
  }

  /** The keys present in a sequence of parse results, in order. */
  function Present(xs: seq<Option<FileKey>>): (ys: seq<FileKey>)
    ensures |ys| <= |xs|
    ensures forall y :: y in ys <==> Some(y) in xs
  {
    if |xs| == 0 then []
    else
      var rest := Present(xs[1..]);
      assert forall x :: x in xs <==> x == xs[0] || x in xs[1..];
      if xs[0].Some? then [xs[0].value] + rest else rest
  }

  /** The keys of the files the loader reads, in listing order. */
  function AcceptedKeys(names: seq<string>): (keys: seq<FileKey>)
    ensures |keys| <= |names|
    ensures forall k :: k in keys <==> exists i :: 0 <= i < |names| && ParseFileName(names[i]) == Some(k)
  {
    var parsed := seq(|names|, i requires 0 <= i < |names| => ParseFileName(names[i]));
    forall k ensures Some(k) in parsed <==> exists i :: 0 <= i < |names| && ParseFileName(names[i]) == Some(k) {
      if Some(k) in parsed {
        var i :| 0 <= i < |parsed| && parsed[i] == Some(k);
      }
      if exists i :: 0 <= i < |names| && ParseFileName(names[i]) == Some(k) {
        var i :| 0 <= i < |names| && ParseFileName(names[i]) == Some(k);
        assert parsed[i] == Some(k);
      }
    }
    Present(parsed)
  }

  /** The name under which a file with the given key is stored. */
  function FileName(k: FileKey): string {
    k.company + [Separator] + k.dataType + [Separator] + k.date + Extension
  }

  /** A name is accepted exactly when it ends in `.xlsx` and the part before
      `.xlsx` splits at `_` into three pieces, which become company, data type
      and date in that order. */
  lemma ParseFileNameSpec(name: string)
    ensures ParseFileName(name).Some? <==>
      EndsWith(name, Extension) && |Split(name[..|name| - |Extension|], Separator)| == 3
    ensures ParseFileName(name).Some? ==>
      var parts := Split(name[..|name| - |Extension|], Separator);
      ParseFileName(name) == Some(FileKey(parts[0], parts[1], parts[2]))
  {
    if EndsWith(name, Extension) {
      var n := |name|;
      var stem := name[..n - 5];
      assert name == stem + Extension;
      var dot := LastIndexOf(name, '.');
      assert name[n - 5] == '.';
      assert dot.Some? && dot.value == n - 5 by {
        assert '.' !in name[n - 4..] by {
          assert name[n - 4..] == "xlsx";
        }
      }
      if AllDots(stem) {
        // A hidden-file name: no extension is removed, and neither the stem
        // nor the whole name contains a separator.
        assert Separator !in stem;
        assert Separator !in name by {
          forall i | 0 <= i < n ensures name[i] != Separator {
            if i >= n - 5 { assert name[i] == Extension[i - (n - 5)]; }
          }
        }
        assert multiset(stem)[Separator] == 0;
        assert multiset(name)[Separator] == 0;
        SplitCount(stem, Separator);
        SplitCount(name, Separator);
      } else {
        assert SplitExt(name).0 == stem;
      }
    }
  }

  /** Every key whose pieces avoid `_` survives the trip through its file
      name. */
  lemma FileNameRoundTrip(k: FileKey)
    requires Separator !in k.company && Separator !in k.dataType && Separator !in k.date
    ensures ParseFileName(FileName(k)) == Some(k)
  {
    var name := FileName(k);
    var stem := k.company + [Separator] + k.dataType + [Separator] + k.date;
    assert name == stem + Extension;
    assert name[..|name| - |Extension|] == stem;
    assert [k.company, k.dataType, k.date][1..] == [k.dataType, k.date];
    assert [k.dataType, k.date][1..] == [k.date];
    assert Join([k.dataType, k.date], Separator) == k.dataType + [Separator] + k.date;
    assert Join([k.company, k.dataType, k.date], Separator)
        == k.company + [Separator] + (k.dataType + [Separator] + k.date);
    assert Join([k.company, k.dataType, k.date], Separator) == stem;
    SplitJoin([k.company, k.dataType, k.date], Separator);
    ParseFileNameSpec(name);
  }

  /** Joining three pieces puts a separator between each two. */
  lemma JoinThree(parts: seq<string>, sep: char)
    requires |parts| == 3
    ensures Join(parts, sep) == parts[0] + [sep] + parts[1] + [sep] + parts[2]
  {
    var tail := parts[1..];
    assert tail[0] == parts[1] && tail[1..] == [parts[2]];
    assert Join(tail, sep) == parts[1] + [sep] + parts[2];
    assert Join(parts, sep) == parts[0] + [sep] + (parts[1] + [sep] + parts[2]);
  }

  /** An accepted name is exactly the name formatted from its key, so the
      key loses nothing of the name. */
  lemma ParsedFileNameRoundTrip(name: string)
    requires ParseFileName(name).Some?
    ensures FileName(ParseFileName(name).value) == name
  {
    ParseFileNameSpec(name);
    var stem := name[..|name| - |Extension|];
    var parts := Split(stem, Separator);
    JoinThree(parts, Separator);
    assert stem + Extension == name;
  }
}

=== FILE: integration.dfy ===
/** Integration: from one record per source file to one row per
    (company, period).

    Each accepted file contributes a record: its company, its period, its
    data type (`财务` for financial sheets, `业务` for operational sheets)
    and the indicator values the sheet lists. Records are split by data
    type, each side keeps the five indicators of its own vocabulary, the two
    sides are outer-joined on (company, period), and the joined table is
    sorted by company and then period. An indicator a sheet does not list,
    or a side of the join that has no record for a key, is `None`, never
    zero. Records of any other data type take no part in the join.
 */
module Integration {
  import opened Options
  import opened Order

  const FinancialType: string := "财务"
  const OperationalType: string := "业务"

  // The financial vocabulary.
  const Revenue: string := "营业收入"
  const Cost: string := "营业成本"
  const Marketing: string := "市场费用"
  const Research: string := "研发费用"
  const Admin: string := "管理费用"

  // The operational vocabulary.
  const StartUsers: string := "月初用户数"
  const EndUsers: string := "月末用户数"
  const NewUsers: string := "新增用户数"
  const Orders: string := "总订单数"
  const PayingUsers: string := "付费用户数"

  const FinancialVocabulary: set<string> := {Revenue, Cost, Marketing, Research, Admin}
  const OperationalVocabulary: set<string> := {StartUsers, EndUsers, NewUsers, Orders, PayingUsers}

  /** One source sheet, turned into a single row. */
  datatype Record = Record(company: string, period: nat, dataType: string, values: map<string, real>)

  datatype Financials = Financials(
    revenue: Option<real>, cost: Option<real>, marketing: Option<real>,
    research: Option<real>, admin: Option<real>)

  datatype Operations = Operations(
    startUsers: Option<real>, endUsers: Option<real>, newUsers: Option<real>,
    orders: Option<real>, payingUsers: Option<real>)

  /** One row of the integrated table. */
  datatype Row = Row(company: string, period: nat, fin: Financials, ops: Operations)

  const NoFinancials: Financials := Financials(None, None, None, None, None)
  const NoOperations: Operations := Operations(None, None, None, None, None)

  function KeyOf(r: Record): Key {
    Key(r.company, r.period)
  }

  function RowKey(r: Row): Key {
    Key(r.company, r.period)
  }

  /** True for the records that one of the two sides of the join selects. */
  predicate Joined(r: Record) {
    r.dataType == FinancialType || r.dataType == OperationalType
  }

  /** At most one record per (company, period, data type) on each side. */
  predicate UniqueKeys(recs: seq<Record>) {
    forall i, j :: 0 <= i < j < |recs| && Joined(recs[i]) && recs[i].dataType == recs[j].dataType ==>
      KeyOf(recs[i]) != KeyOf(recs[j])
  }

  /** An indicator of a sheet, missing when the sheet does not list it. */
  function Get(values: map<string, real>, name: string): (r: Option<real>)
    ensures r.Some? <==> name in values
    ensures r.Some? ==> r.value == values[name]
  {
    if name in values then Some(values[name]) else None
  }

  /** The financial side keeps only the financial vocabulary. */
  function ProjectFinancials(values: map<string, real>): Financials {
    Financials(Get(values, Revenue), Get(values, Cost), Get(values, Marketing),
               Get(values, Research), Get(values, Admin))
  }

  /** The operational side keeps only the operational vocabulary. */
  function ProjectOperations(values: map<string, real>): Operations {
    Operations(Get(values, StartUsers), Get(values, EndUsers), Get(values, NewUsers),
               Get(values, Orders), Get(values, PayingUsers))
  }

  /** Each side reads only its own vocabulary: the indicators a sheet lists
      outside it never reach that side's columns, so a financial sheet
      contributes no operational column and an operational sheet no
      financial one. */
  lemma ProjectionsKeepOwnVocabulary(values: map<string, real>)
    ensures ProjectFinancials(values) == ProjectFinancials(map k | k in values && k in FinancialVocabulary :: values[k])
    ensures ProjectOperations(values) == ProjectOperations(map k | k in values && k in OperationalVocabulary :: values[k])
    ensures (forall k :: k in values ==> k in FinancialVocabulary) ==> ProjectOperations(values) == NoOperations
    ensures (forall k :: k in values ==> k in OperationalVocabulary) ==> ProjectFinancials(values) == NoFinancials
  {
  }

  /** The first record of the given data type and key. */
  function Find(recs: seq<Record>, dataType: string, k: Key): (r: Option<Record>)
    ensures r.Some? ==> r.value in recs && r.value.dataType == dataType && KeyOf(r.value) == k
    ensures r.None? <==> forall i :: 0 <= i < |recs| ==> !(recs[i].dataType == dataType && KeyOf(recs[i]) == k)
  {
    if |recs| == 0 then None
    else if recs[0].dataType == dataType && KeyOf(recs[0]) == k then Some(recs[0])
    else
      var r := Find(recs[1..], dataType, k);
      assert forall i :: 1 <= i < |recs| ==> recs[i] == recs[1..][i - 1];
      r
  }

  /** Under unique keys, the record found is the one matching record. */
  lemma {:induction false} FindUnique(recs: seq<Record>, j: nat)
    requires UniqueKeys(recs)
    requires j < |recs| && Joined(recs[j])
    ensures Find(recs, recs[j].dataType, KeyOf(recs[j])) == Some(recs[j])
  {
    if j > 0 && !(recs[0].dataType == recs[j].dataType && KeyOf(recs[0]) == KeyOf(recs[j])) {
      assert UniqueKeys(recs[1..]) by {
        forall i, i' | 0 <= i < i' < |recs[1..]|
          ensures !(Joined(recs[1..][i]) && recs[1..][i].dataType == recs[1..][i'].dataType) ||
                  KeyOf(recs[1..][i]) != KeyOf(recs[1..][i'])
        {
          assert recs[1..][i] == recs[i + 1] && recs[1..][i'] == recs[i' + 1];
        }
      }
      assert recs[1..][j - 1] == recs[j];
      FindUnique(recs[1..], j - 1);
    }
  }

  /** The financial columns of the joined row with key `k`. */
  function FinancialsFor(recs: seq<Record>, k: Key): Financials {
    match Find(recs, FinancialType, k)
    case Some(r) => ProjectFinancials(r.values)
    case None => NoFinancials
  }

  /** The operational columns of the joined row with key `k`. */
  function OperationsFor(recs: seq<Record>, k: Key): Operations {
    match Find(recs, OperationalType, k)
    case Some(r) => ProjectOperations(r.values)
    case None => NoOperations
  }

  /** The keys of the records on either side of the join, in input order. */
  function RecordKeys(recs: seq<Record>): (ks: seq<Key>)
    ensures forall k :: k in ks <==> exists i :: 0 <= i < |recs| && Joined(recs[i]) && KeyOf(recs[i]) == k
  {
    if |recs| == 0 then []
    else
      var rest := RecordKeys(recs[1..]);
      assert forall i :: 1 <= i < |recs| ==> recs[i] == recs[1..][i - 1];
      assert forall i :: 0 <= i < |recs[1..]| ==> recs[1..][i] == recs[i + 1];
      if Joined(recs[0]) then [KeyOf(recs[0])] + rest else rest
  }

  function RowKeys(rows: seq<Row>): (ks: seq<Key>)
    ensures |ks| == |rows|
    ensures forall i :: 0 <= i < |rows| ==> ks[i] == RowKey(rows[i])
  {
    seq(|rows|, i requires 0 <= i < |rows| => RowKey(rows[i]))
  }

  /** The outer join of the financial and the operational records on
      (company, period), sorted by company and then period. */
  function Integrate(recs: seq<Record>): (rows: seq<Row>)
    requires UniqueKeys(recs)
    ensures StrictlySorted(RowKeys(rows))
    ensures forall k :: k in RowKeys(rows) <==> k in RecordKeys(recs)
  {
    var keys := SortKeys(RecordKeys(recs));
    var rows := seq(|keys|, i requires 0 <= i < |keys| =>
                      Row(keys[i].company, keys[i].period, FinancialsFor(recs, keys[i]), OperationsFor(recs, keys[i])));
    assert RowKeys(rows) == keys;
    rows
  }

  /** Each joined row carries the indicators of the record of each side that
      has its key, and nothing on a side that has no such record. */
  lemma IntegratedFields(recs: seq<Record>, i: nat)
    requires UniqueKeys(recs)
    requires i < |Integrate(recs)|
    ensures var row := Integrate(recs)[i];
      && (forall j :: 0 <= j < |recs| && recs[j].dataType == FinancialType && KeyOf(recs[j]) == RowKey(row) ==>
            row.fin == ProjectFinancials(recs[j].values))
      && (forall j :: 0 <= j < |recs| && recs[j].dataType == OperationalType && KeyOf(recs[j]) == RowKey(row) ==>
            row.ops == ProjectOperations(recs[j].values))
      && ((forall j :: 0 <= j < |recs| ==> !(recs[j].dataType == FinancialType && KeyOf(recs[j]) == RowKey(row))) ==>
            row.fin == NoFinancials)
      && ((forall j :: 0 <= j < |recs| ==> !(recs[j].dataType == OperationalType && KeyOf(recs[j]) == RowKey(row))) ==>
            row.ops == NoOperations)
  {
    var row := Integrate(recs)[i];
    forall j | 0 <= j < |recs| && recs[j].dataType == FinancialType && KeyOf(recs[j]) == RowKey(row)
      ensures row.fin == ProjectFinancials(recs[j].values)
    {
      FindUnique(recs, j);
    }
    forall j | 0 <= j < |recs| && recs[j].dataType == OperationalType && KeyOf(recs[j]) == RowKey(row)
      ensures row.ops == ProjectOperations(recs[j].values)
    {
      FindUnique(recs, j);
    }
  }

  /** The order in which the directory lists the files does not matter: any
      permutation of the records integrates to the same table. */
  lemma IntegrateIgnoresListingOrder(recs: seq<Record>, recs': seq<Record>)
    requires UniqueKeys(recs) && UniqueKeys(recs')
    requires multiset(recs) == multiset(recs')
    ensures Integrate(recs) == Integrate(recs')
  {
    assert forall r :: r in recs <==> r in recs' by {
      forall r ensures r in recs <==> r in recs' {
        assert r in recs <==> r in multiset(recs);
        assert r in recs' <==> r in multiset(recs');
      }
    }
    var ks, ks' := RecordKeys(recs), RecordKeys(recs');
    assert forall k :: k in ks <==> k in ks' by {
      forall k ensures k in ks ==> k in ks' {
        if k in ks {
          var i :| 0 <= i < |recs| && Joined(recs[i]) && KeyOf(recs[i]) == k;
          assert recs[i] in recs';
          var i' :| 0 <= i' < |recs'| && recs'[i'] == recs[i];
        }
      }
      forall k ensures k in ks' ==> k in ks {
        if k in ks' {
          var i' :| 0 <= i' < |recs'| && Joined(recs'[i']) && KeyOf(recs'[i']) == k;
          assert recs'[i'] in recs;
          var i :| 0 <= i < |recs| && recs[i] == recs'[i'];
        }
      }
    }
    SortedUnique(SortKeys(ks), SortKeys(ks'));
    forall t, k | t == FinancialType || t == OperationalType
      ensures Find(recs, t, k) == Find(recs', t, k)
    {
      SameFind(recs, recs', t, k);
      SameFind(recs', recs, t, k);
    }
  }

  /** A record found in one listing is found in any other listing holding the
      same records. */
  lemma SameFind(recs: seq<Record>, recs': seq<Record>, t: string, k: Key)
    requires UniqueKeys(recs) && UniqueKeys(recs')
    requires t == FinancialType || t == OperationalType
    requires forall r :: r in recs <==> r in recs'
    ensures Find(recs, t, k).Some? ==> Find(recs', t, k) == Find(recs, t, k)
  {
    var f := Find(recs, t, k);
    if f.Some? {
      var j :| 0 <= j < |recs'| && recs'[j] == f.value;
      FindUnique(recs', j);
    }
  }
}

=== FILE: kpis.dfy ===
/** KPI derivation over the integrated table.

    For every row, the previous period's revenue and ending users are those
    of the closest earlier row of the same company (pandas'
    `groupby('公司').shift(1)`), and six ratios follow from them and from
    the row's own indicators. Nothing is clamped or floored: a ratio is
    undefined exactly when one of its inputs is undefined or its divisor is
    zero.
 */
module Kpis {
  import opened Options
  import opened Order
  import opened Integration

  /** An integrated row extended with the derived columns. */
  datatype KpiRow = KpiRow(
    row: Row,
    priorRevenue: Option<real>,
    growth: Option<real>,
    cac: Option<real>,
    priorEndUsers: Option<real>,
    retention: Option<real>,
    margin: Option<real>,
    ltv: Option<real>,
    ltvCac: Option<real>)

  /** The last row before `end` that belongs to `company`. */
  function LastOfCompany(rows: seq<Row>, company: string, end: nat): (r: Option<nat>)
    requires end <= |rows|
    ensures r.None? <==> forall j :: 0 <= j < end ==> rows[j].company != company
    ensures r.Some? ==> r.value < end && rows[r.value].company == company
    ensures r.Some? ==> forall j :: r.value < j < end ==> rows[j].company != company
  {
    if end == 0 then None
    else if rows[end - 1].company == company then Some(end - 1)
    else LastOfCompany(rows, company, end - 1)
  }

  /** The row `shift(1)` within the company's group sees as row `i`'s
      predecessor, in whatever order the table is. */
  function Prior(rows: seq<Row>, i: nat): Option<nat>
    requires i < |rows|
  {
    LastOfCompany(rows, rows[i].company, i)
  }

  /** In a table sorted by (company, period) each company's rows are
      adjacent, so the group predecessor is simply the row above, when that
      row has the same company; a company's first row has none. */
  lemma PriorOnSortedRows(rows: seq<Row>, i: nat)
    requires StrictlySorted(RowKeys(rows))
    requires i < |rows|
    ensures Prior(rows, i) == if i > 0 && rows[i - 1].company == rows[i].company then Some(i - 1) else None
  {
    if i > 0 && rows[i - 1].company != rows[i].company {
      var ks := RowKeys(rows);
      forall j | 0 <= j < i - 1 ensures rows[j].company != rows[i].company {
        if rows[j].company == rows[i].company {
          assert KeyLess(ks[j], ks[i - 1]) && KeyLess(ks[i - 1], ks[i]);
          StrLessTrichotomy(rows[i - 1].company, rows[i].company);
        }
      }
    }
  }

  /** Month-on-month revenue growth. */
  function Growth(revenue: Option<real>, priorRevenue: Option<real>): (r: Option<real>)
    ensures r.Some? <==> revenue.Some? && priorRevenue.Some? && priorRevenue.value != 0.0
    ensures r.Some? ==> priorRevenue.value * (1.0 + r.value) == revenue.value
  {
    Div(Sub(revenue, priorRevenue), priorRevenue)
  }

  /** Customer acquisition cost: marketing spend per new user. */
  function Cac(marketing: Option<real>, newUsers: Option<real>): (r: Option<real>)
    ensures r.Some? <==> marketing.Some? && newUsers.Some? && newUsers.value != 0.0
    ensures r.Some? ==> r.value * newUsers.value == marketing.value
  {
    Div(marketing, newUsers)
  }

  /** Retention: this month's ending users that are not new, as a share of
      last month's ending users. */
  function Retention(endUsers: Option<real>, newUsers: Option<real>, priorEndUsers: Option<real>): (r: Option<real>)
    ensures r.Some? <==>
      endUsers.Some? && newUsers.Some? && priorEndUsers.Some? && priorEndUsers.value != 0.0
    ensures r.Some? ==> r.value * priorEndUsers.value + newUsers.value == endUsers.value
  {
    Div(Sub(endUsers, newUsers), priorEndUsers)
  }

  /** Gross margin: the share of revenue left after cost. */
  function Margin(revenue: Option<real>, cost: Option<real>): (r: Option<real>)
    ensures r.Some? <==> revenue.Some? && cost.Some? && revenue.value != 0.0
    ensures r.Some? ==> revenue.value * (1.0 - r.value) == cost.value
  {
    Div(Sub(revenue, cost), revenue)
  }

  /** Estimated lifetime value: revenue per paying user, times margin, times
      the expected lifetime 1 / (1 - retention). */
  function Ltv(revenue: Option<real>, payingUsers: Option<real>, margin: Option<real>, retention: Option<real>): (r: Option<real>)
    ensures r.Some? <==>
      && revenue.Some? && payingUsers.Some? && payingUsers.value != 0.0
      && margin.Some? && retention.Some? && retention.value != 1.0
    ensures r.Some? ==> r.value * payingUsers.value * (1.0 - retention.value) == revenue.value * margin.value
  {
    var arpu := Div(revenue, payingUsers);
    var lifetime := Div(Some(1.0), Sub(Some(1.0), retention));
    var r := Mul(Mul(arpu, margin), lifetime);
    if r.Some? then
      LtvAlgebra(arpu.value, margin.value, lifetime.value, payingUsers.value, 1.0 - retention.value, revenue.value);
      r
    else
      r
  }

  /** The product behind `Ltv`'s contract: with a * p == revenue and
      l * q == 1, a * m * l * p * q == revenue * m. */
  lemma LtvAlgebra(a: real, m: real, l: real, p: real, q: real, revenue: real)
    requires a * p == revenue && l * q == 1.0
    ensures a * m * l * p * q == revenue * m
  {
    calc {
      a * m * l * p * q;
      (a * p) * m * (l * q);
      revenue * m;
    }
  }

  /** The LTV to CAC ratio. */
  function LtvCac(ltv: Option<real>, cac: Option<real>): (r: Option<real>)
    ensures r.Some? <==> ltv.Some? && cac.Some? && cac.value != 0.0
    ensures r.Some? ==> r.value * cac.value == ltv.value
  {
    Div(ltv, cac)
  }

  /** The derived columns of one row, given the predecessor's revenue and
      ending users. */
  function Derive(row: Row, priorRevenue: Option<real>, priorEndUsers: Option<real>): (k: KpiRow)
    ensures k.row == row && k.priorRevenue == priorRevenue && k.priorEndUsers == priorEndUsers
    ensures k.growth == Growth(row.fin.revenue, priorRevenue)
    ensures k.cac == Cac(row.fin.marketing, row.ops.newUsers)
    ensures k.retention == Retention(row.ops.endUsers, row.ops.newUsers, priorEndUsers)
    ensures k.margin == Margin(row.fin.revenue, row.fin.cost)
    ensures k.ltv == Ltv(row.fin.revenue, row.ops.payingUsers, k.margin, k.retention)
    ensures k.ltvCac == LtvCac(k.ltv, k.cac)
  {
    var retention := Retention(row.ops.endUsers, row.ops.newUsers, priorEndUsers);
    var margin := Margin(row.fin.revenue, row.fin.cost);
    var cac := Cac(row.fin.marketing, row.ops.newUsers);
    var ltv := Ltv(row.fin.revenue, row.ops.payingUsers, margin, retention);
    KpiRow(row, priorRevenue, Growth(row.fin.revenue, priorRevenue), cac,
           priorEndUsers, retention, margin, ltv, LtvCac(ltv, cac))
  }

  /** Row `i` of the KPI table. */
  function KpiAt(rows: seq<Row>, i: nat): KpiRow
    requires i < |rows|
  {
    match Prior(rows, i)
    case Some(j) => Derive(rows[i], rows[j].fin.revenue, rows[j].ops.endUsers)
    case None => Derive(rows[i], None, None)
  }

  /** The KPI table: one derived row per integrated row, in the same order. */
  function CalculateKpis(rows: seq<Row>): (kpis: seq<KpiRow>)
    ensures |kpis| == |rows|
    ensures forall i :: 0 <= i < |rows| ==> kpis[i].row == rows[i]
    ensures forall i :: 0 <= i < |rows| ==>
      && kpis[i].growth == Growth(rows[i].fin.revenue, kpis[i].priorRevenue)
      && kpis[i].cac == Cac(rows[i].fin.marketing, rows[i].ops.newUsers)
      && kpis[i].retention == Retention(rows[i].ops.endUsers, rows[i].ops.newUsers, kpis[i].priorEndUsers)
      && kpis[i].margin == Margin(rows[i].fin.revenue, rows[i].fin.cost)
      && kpis[i].ltv == Ltv(rows[i].fin.revenue, rows[i].ops.payingUsers, kpis[i].margin, kpis[i].retention)
      && kpis[i].ltvCac == LtvCac(kpis[i].ltv, kpis[i].cac)
  {
    seq(|rows|, i requires 0 <= i < |rows| => KpiAt(rows, i))
  }

  /** The index `shift(1)` reads from: the closest earlier row of the same
      company, or none for the company's first row. */
  lemma PriorIndex(rows: seq<Row>, i: nat, j: nat)
    requires j < i < |rows| && rows[j].company == rows[i].company
    requires forall m :: j < m < i ==> rows[m].company != rows[i].company
    ensures Prior(rows, i) == Some(j)
  {
    var p := Prior(rows, i);
    assert p.Some?;
    assert !(p.value < j) && !(j < p.value);
  }

  /** The previous-period columns come from the closest earlier row of the
      same company, and are undefined for the company's first row. */
  lemma PriorColumns(rows: seq<Row>, i: nat)
    requires i < |rows|
    ensures var k := CalculateKpis(rows)[i];
      && ((forall j :: 0 <= j < i ==> rows[j].company != rows[i].company) ==>
            k.priorRevenue.None? && k.priorEndUsers.None?)
      && (forall j :: (0 <= j < i && rows[j].company == rows[i].company &&
                       (forall m :: j < m < i ==> rows[m].company != rows[i].company)) ==>
              k.priorRevenue == rows[j].fin.revenue && k.priorEndUsers == rows[j].ops.endUsers)
  {
    var k := CalculateKpis(rows)[i];
    assert k == KpiAt(rows, i);
    var p := Prior(rows, i);
    assert k.priorRevenue == (if p.Some? then rows[p.value].fin.revenue else None);
    assert k.priorEndUsers == (if p.Some? then rows[p.value].ops.endUsers else None);
    forall j | 0 <= j < i && rows[j].company == rows[i].company &&
               (forall m :: j < m < i ==> rows[m].company != rows[i].company)
      ensures p == Some(j)
    {
      PriorIndex(rows, i, j);
    }
  }

  /** A company's first period has no growth and no retention, hence no LTV
      and no LTV/CAC ratio. */
  lemma FirstPeriodUndefined(rows: seq<Row>, i: nat)
    requires i < |rows|
    requires forall j :: 0 <= j < i ==> rows[j].company != rows[i].company
    ensures var k := CalculateKpis(rows)[i];
      k.growth.None? && k.retention.None? && k.ltv.None? && k.ltvCac.None?
  {
  }

  /** On a sorted table, row `i`'s KPIs take the predecessor columns from
      the row above when it has the same company. */
  lemma KpiAtOnSortedRows(rows: seq<Row>, i: nat)
    requires StrictlySorted(RowKeys(rows))
    requires i < |rows|
    ensures KpiAt(rows, i) ==
      if i > 0 && rows[i - 1].company == rows[i].company
      then Derive(rows[i], rows[i - 1].fin.revenue, rows[i - 1].ops.endUsers)
      else Derive(rows[i], None, None)
  {
    PriorOnSortedRows(rows, i);
  }

  /** Walks the sorted table once, keeping only the previous row, and
      produces the same table as the group-wise shift. */
  method DeriveKpis(rows: seq<Row>) returns (kpis: seq<KpiRow>)
    requires StrictlySorted(RowKeys(rows))
    ensures kpis == CalculateKpis(rows)
  {
    kpis := [];
    var previous: Option<Row> := None;
    for i := 0 to |rows|
      invariant |kpis| == i
      invariant forall j :: 0 <= j < i ==> kpis[j] == KpiAt(rows, j)
      invariant previous == if i == 0 then None else Some(rows[i - 1])
    {
      var row := rows[i];
      var priorRevenue, priorEndUsers := None, None;
      if previous.Some? && previous.value.company == row.company {
        priorRevenue, priorEndUsers := previous.value.fin.revenue, previous.value.ops.endUsers;
      }
      KpiAtOnSortedRows(rows, i);
      var k := Derive(row, priorRevenue, priorEndUsers);
      kpis := kpis + [k];
      previous := Some(row);
    }
    assert forall j :: 0 <= j < |rows| ==> CalculateKpis(rows)[j] == KpiAt(rows, j);
  }

  /** Three consecutive months of one company with revenue 100000, 120000
      and 150000: growth is undefined, then 20%, then 25%. */
  lemma GrowthExample(f1: Financials, f2: Financials, f3: Financials, o1: Operations, o2: Operations, o3: Operations)
    requires f1.revenue == Some(100000.0) && f2.revenue == Some(120000.0) && f3.revenue == Some(150000.0)
    ensures var kpis := CalculateKpis([Row("X", 202307, f1, o1), Row("X", 202308, f2, o2), Row("X", 202309, f3, o3)]);
      kpis[0].growth == None && kpis[1].growth == Some(0.2) && kpis[2].growth == Some(0.25)
  {
    var rows := [Row("X", 202307, f1, o1), Row("X", 202308, f2, o2), Row("X", 202309, f3, o3)];
    assert Prior(rows, 1) == Some(0);
    assert Prior(rows, 2) == Some(1);
  }
}

=== FILE: options.dfy ===
/** Optional values and the arithmetic of "undefined".

    The analysis keeps every indicator and every derived metric as a
    possibly-missing real number. A missing spreadsheet cell, a missing side
    of the outer join and the first period's missing predecessor all appear
    as `None`, and `None` propagates through every formula the way a NaN
    propagates through a pandas column expression.
 */
module Options {

  datatype Option<+T> = None | Some(value: T)

  /** Subtraction: undefined when either operand is. */
  function Sub(a: Option<real>, b: Option<real>): (r: Option<real>)
    ensures r.Some? <==> a.Some? && b.Some?
    ensures r.Some? ==> r.value + b.value == a.value
  {
    if a.Some? && b.Some? then Some(a.value - b.value) else None
  }

  /** Multiplication: undefined when either operand is. */
  function Mul(a: Option<real>, b: Option<real>): (r: Option<real>)
    ensures r.Some? <==> a.Some? && b.Some?
    ensures r.Some? ==> r.value == a.value * b.value
  {
    if a.Some? && b.Some? then Some(a.value * b.value) else None
  }

  /** Division: undefined when either operand is, and also when the divisor
      is zero (where floating point would give an infinity or a NaN). */
  function Div(a: Option<real>, b: Option<real>): (r: Option<real>)
    ensures r.Some? <==> a.Some? && b.Some? && b.value != 0.0
    ensures r.Some? ==> r.value * b.value == a.value
  {
    if a.Some? && b.Some? && b.value != 0.0 then Some(a.value / b.value) else None
  }
}

=== FILE: order.dfy ===
/** The order in which the integrated table is sorted: by company name, then
    by period.

    Company names compare as Python strings do, character by character on
    code points, a proper prefix coming first. Periods are YYYYMM numbers,
    whose numeric order is their chronological order.
 */
module Order {

  /** A (company, period) pair: the key of the outer join and of the sort. */
  datatype Key = Key(company: string, period: nat)

  /** Python's `a < b` on strings. */
  predicate StrLess(a: string, b: string) {
    if |a| == 0 then |b| > 0
    else if |b| == 0 then false
    else if a[0] != b[0] then a[0] < b[0]
    else StrLess(a[1..], b[1..])
  }

  predicate KeyLess(a: Key, b: Key) {
    StrLess(a.company, b.company) || (a.company == b.company && a.period < b.period)
  }

  /** Strictly ascending, hence also free of repeated keys. */
  predicate StrictlySorted(ks: seq<Key>) {
    forall i, j :: 0 <= i < j < |ks| ==> KeyLess(ks[i], ks[j])
  }

  lemma {:induction false} StrLessIrreflexive(a: string)
    ensures !StrLess(a, a)
  {
    if |a| > 0 {
      StrLessIrreflexive(a[1..]);
    }
  }

  lemma {:induction false} StrLessTransitive(a: string, b: string, c: string)
    requires StrLess(a, b) && StrLess(b, c)
    ensures StrLess(a, c)
  {
    if |a| > 0 && |b| > 0 && |c| > 0 && a[0] == b[0] && b[0] == c[0] {
      StrLessTransitive(a[1..], b[1..], c[1..]);
    }
  }

  /** Any two distinct strings are ordered one way, and not both ways. */
  lemma {:induction false} StrLessTrichotomy(a: string, b: string)
    ensures a == b || StrLess(a, b) || StrLess(b, a)
    ensures !(StrLess(a, b) && StrLess(b, a))
  {
    if |a| > 0 && |b| > 0 && a[0] == b[0] {
      StrLessTrichotomy(a[1..], b[1..]);
      if a[1..] == b[1..] {
        assert a == [a[0]] + a[1..] && b == [b[0]] + b[1..];
      }
    }
  }

  /** `KeyLess` is a strict total order. */
  lemma KeyLessStrictTotal()
    ensures forall a :: !KeyLess(a, a)
    ensures forall a, b, c :: KeyLess(a, b) && KeyLess(b, c) ==> KeyLess(a, c)
    ensures forall a, b :: a == b || KeyLess(a, b) || KeyLess(b, a)
    ensures forall a, b :: !(KeyLess(a, b) && KeyLess(b, a))
  {
    forall a: Key ensures !KeyLess(a, a) {
      StrLessIrreflexive(a.company);
    }
    forall a: Key, b: Key, c: Key | KeyLess(a, b) && KeyLess(b, c) ensures KeyLess(a, c) {
      if StrLess(a.company, b.company) && StrLess(b.company, c.company) {
        StrLessTransitive(a.company, b.company, c.company);
      }
    }
    forall a: Key, b: Key ensures a == b || KeyLess(a, b) || KeyLess(b, a) {
      StrLessTrichotomy(a.company, b.company);
    }
    forall a: Key, b: Key ensures !(KeyLess(a, b) && KeyLess(b, a)) {
      StrLessTrichotomy(a.company, b.company);
      StrLessIrreflexive(a.company);
    }
  }

  /** Inserts `k` at its place in a sorted sequence, unless already there. */
  function Insert(ks: seq<Key>, k: Key): (r: seq<Key>)
    requires StrictlySorted(ks)
    ensures StrictlySorted(r)
    ensures forall x :: x in r <==> x in ks || x == k
    ensures |r| <= |ks| + 1
  {
    KeyLessStrictTotal();
    if |ks| == 0 then [k]
    else if k == ks[0] then ks
    else if KeyLess(k, ks[0]) then [k] + ks
    else
      var tail := Insert(ks[1..], k);
      assert forall x :: x in tail ==> KeyLess(ks[0], x);
      [ks[0]] + tail
  }

  /** The keys in ascending order, each once: `sort_values` on a table whose
      keys are unique. */
  function SortKeys(ks: seq<Key>): (r: seq<Key>)
    ensures StrictlySorted(r)
    ensures forall x :: x in r <==> x in ks
    ensures |r| <= |ks|
  {
    if |ks| == 0 then []
    else
      var r := Insert(SortKeys(ks[..|ks| - 1]), ks[|ks| - 1]);
      assert ks == ks[..|ks| - 1] + [ks[|ks| - 1]];
      r
  }

  /** A strictly sorted sequence is determined by its elements, so sorting
      does not depend on the order in which the keys were met. */
  lemma {:induction false} SortedUnique(a: seq<Key>, b: seq<Key>)
    requires StrictlySorted(a) && StrictlySorted(b)
    requires forall x :: x in a <==> x in b
    ensures a == b
  {
    KeyLessStrictTotal();
    if |a| > 0 {
      assert a[0] in b;
    }
    if |b| > 0 {
      assert b[0] in a;
    }
    if |a| > 0 && |b| > 0 {
      // Both heads are the least element of the common set.
      assert a[0] == b[0];
      forall x ensures x in a[1..] <==> x in b[1..] {
        if x in a[1..] {
          assert x in b && x != b[0];
        }
        if x in b[1..] {
          assert x in a && x != a[0];
        }
      }
      SortedUnique(a[1..], b[1..]);
      assert a == [a[0]] + a[1..] && b == [b[0]] + b[1..];
    }
  }
}

=== FILE: pipeline.dfy ===
/** The analysis run end to end: integrate the records, derive the KPIs,
    score the rows. */
module Pipeline {
  import opened Options
  import opened Order
  import opened Integration
  import opened Kpis
  import opened Scoring

  function ScoredKeys(out: seq<ScoredRow>): (ks: seq<Key>)
    ensures |ks| == |out|
    ensures forall i :: 0 <= i < |out| ==> ks[i] == RowKey(out[i].kpis.row)
  {
    seq(|out|, i requires 0 <= i < |out| => RowKey(out[i].kpis.row))
  }

  /** The scored table built from the records. */
  function ScoredTable(recs: seq<Record>, rules: Rules): (out: seq<ScoredRow>)
    requires UniqueKeys(recs)
    ensures StrictlySorted(ScoredKeys(out))
    ensures forall k :: k in ScoredKeys(out) <==> k in RecordKeys(recs)
    ensures |out| == |Integrate(recs)|
    ensures forall i :: 0 <= i < |out| ==> out[i].kpis == CalculateKpis(Integrate(recs))[i]
    ensures forall i :: 0 <= i < |out| ==> out[i] == ScoreRow(CalculateKpis(Integrate(recs))[i], rules)
  {
    var rows := Integrate(recs);
    var out := CalculateScores(CalculateKpis(rows), rules);
    assert ScoredKeys(out) == RowKeys(rows);
    out
  }

  /** The analysis: nothing when no file was accepted (concatenating no
      sheets fails, and the run stops), and otherwise one scored row per
      (company, period) of the financial and operational records, in
      ascending (company, period) order. */
  function Analyze(recs: seq<Record>, rules: Rules): (out: Option<seq<ScoredRow>>)
    requires UniqueKeys(recs)
    ensures out.None? <==> |recs| == 0
    ensures out.Some? ==> out.value == ScoredTable(recs, rules)
    ensures out.Some? ==> StrictlySorted(ScoredKeys(out.value))
    ensures out.Some? ==> forall k :: k in ScoredKeys(out.value) <==> k in RecordKeys(recs)
  {
    if |recs| == 0 then None else Some(ScoredTable(recs, rules))
  }

  /** A company's earliest period is never scored: it has no growth rate. */
  lemma FirstPeriodNeverScored(recs: seq<Record>, rules: Rules, i: nat)
    requires UniqueKeys(recs)
    requires i < |Integrate(recs)|
    requires i == 0 || Integrate(recs)[i - 1].company != Integrate(recs)[i].company
    ensures ScoredTable(recs, rules)[i].score.None? && ScoredTable(recs, rules)[i].rating.None?
  {
    var rows := Integrate(recs);
    PriorOnSortedRows(rows, i);
    FirstPeriodUndefined(rows, i);
  }

  /** As written, the scores cannot be stored unless the table has exactly
      two rows: its first row is a company's first period, which the gate
      turns away, so `apply` returns one column of cells rather than two
      columns. */
  lemma AsWrittenScoresNotAssignable(recs: seq<Record>, rules: Rules)
    requires UniqueKeys(recs)
    requires |Integrate(recs)| > 0
    ensures var kpis := CalculateKpis(Integrate(recs));
      AssignableToTwoColumns(AsWrittenApplyShape(kpis)) <==> |kpis| == 2
  {
    var kpis := CalculateKpis(Integrate(recs));
    FirstPeriodNeverScored(recs, rules, 0);
    assert !Scorable(kpis[0]);
  }
}

=== FILE: scoring.dfy ===
/** Health scoring and rating.

    Two metrics are scored, revenue growth and the LTV/CAC ratio. Each earns
    5 points above its `high` threshold, 3 points above its `mid` threshold
    and 0 points otherwise. The sum maps to a rating through the fixed
    breakpoints 8 (A), 5 (B) and 2 (C); below 2 is D. A row is scored only
    when both metrics are defined; otherwise its score and rating are empty
    and the row is kept as it is.
 */
module Scoring {
  import opened Options
  import opened Kpis

  /** The `高` (high) and `中` (mid) thresholds of one metric. */
  datatype Thresholds = Thresholds(high: real, mid: real)

  /** The configurable rules: thresholds for growth and for LTV/CAC. */
  datatype Rules = Rules(growth: Thresholds, ltvCac: Thresholds)

  datatype Rating = A | B | C | D

  /** A KPI row extended with its score and rating, both empty when the row
      is not scored. */
  datatype ScoredRow = ScoredRow(kpis: KpiRow, score: Option<nat>, rating: Option<Rating>)

  /** The rules the analysis is configured with: growth above 15% or 5%,
      LTV/CAC above 3 or 1. */
  const DefaultRules: Rules := Rules(Thresholds(0.15, 0.05), Thresholds(3.0, 1.0))

  /** The points one metric earns. */
  function Points(v: real, t: Thresholds): (p: nat)
    ensures p == 0 || p == 3 || p == 5
  {
    if v > t.high then 5
    else if v > t.mid then 3
    else 0
  }

  /** What the points mean: 5 exactly above `high`; 3 exactly above `mid`
      but not above `high`; 0 otherwise. */
  lemma PointsThresholds(v: real, t: Thresholds)
    ensures Points(v, t) == 5 <==> v > t.high
    ensures Points(v, t) == 3 <==> v <= t.high && v > t.mid
    ensures Points(v, t) == 0 <==> v <= t.high && v <= t.mid
  {
  }

  /** A larger value never earns fewer points, whatever the thresholds, even
      when `mid` is not below `high`. */
  lemma PointsMonotone(v: real, w: real, t: Thresholds)
    requires v <= w
    ensures Points(v, t) <= Points(w, t)
  {
  }

  /** The score of a row whose two metrics are defined. */
  function Total(growth: real, ltvCac: real, rules: Rules): (s: nat)
    ensures s in {0, 3, 5, 6, 8, 10}
    ensures s <= 10
  {
    Points(growth, rules.growth) + Points(ltvCac, rules.ltvCac)
  }

  /** The rating table: 8 and up is A, 5 to 7 is B, 2 to 4 is C, below 2
      is D. */
  function RatingOf(score: int): (r: Rating)
    ensures r == A <==> score >= 8
    ensures r == B <==> 5 <= score < 8
    ensures r == C <==> 2 <= score < 5
    ensures r == D <==> score < 2
  {
    if score >= 8 then A
    else if score >= 5 then B
    else if score >= 2 then C
    else D
  }

  /** The position of a rating, D lowest and A highest. */
  function Rank(r: Rating): nat {
    match r
    case A => 3
    case B => 2
    case C => 1
    case D => 0
  }

  /** A higher score never gets a lower rating. */
  lemma RatingMonotone(s: int, t: int)
    requires s <= t
    ensures Rank(RatingOf(s)) <= Rank(RatingOf(t))
  {
  }

  /** The gate: a row is scored only when growth and LTV/CAC are defined. */
  predicate Scorable(k: KpiRow) {
    k.growth.Some? && k.ltvCac.Some?
  }

  /** Scores one row when growth and LTV/CAC are both defined. */
  function ScoreRow(k: KpiRow, rules: Rules): (r: ScoredRow)
    ensures r.kpis == k
    ensures r.score.Some? <==> Scorable(k)
    ensures r.rating.Some? <==> r.score.Some?
    ensures r.score.Some? ==>
      r.score.value == Points(k.growth.value, rules.growth) + Points(k.ltvCac.value, rules.ltvCac)
    ensures r.score.Some? ==> r.score.value <= 10 && r.rating.value == RatingOf(r.score.value)
  {
    if Scorable(k) then
      var s := Total(k.growth.value, k.ltvCac.value, rules);
      ScoredRow(k, Some(s), Some(RatingOf(s)))
    else
      ScoredRow(k, None, None)
  }

  /** Better growth and a better LTV/CAC ratio never give a worse rating. */
  lemma BetterMetricsNeverRateLower(k: KpiRow, k': KpiRow, rules: Rules)
    requires k.growth.Some? && k.ltvCac.Some? && k'.growth.Some? && k'.ltvCac.Some?
    requires k.growth.value <= k'.growth.value && k.ltvCac.value <= k'.ltvCac.value
    ensures ScoreRow(k, rules).score.value <= ScoreRow(k', rules).score.value
    ensures Rank(ScoreRow(k, rules).rating.value) <= Rank(ScoreRow(k', rules).rating.value)
  {
    PointsMonotone(k.growth.value, k'.growth.value, rules.growth);
    PointsMonotone(k.ltvCac.value, k'.ltvCac.value, rules.ltvCac);
    RatingMonotone(ScoreRow(k, rules).score.value, ScoreRow(k', rules).score.value);
  }

  /** Scores every row of the KPI table, keeping its order. */
  function CalculateScores(kpis: seq<KpiRow>, rules: Rules): (scored: seq<ScoredRow>)
    ensures |scored| == |kpis|
    ensures forall i :: 0 <= i < |kpis| ==> scored[i].kpis == kpis[i]
    ensures forall i :: 0 <= i < |kpis| ==> (scored[i].score.Some? <==> Scorable(kpis[i]))
    ensures forall i :: 0 <= i < |kpis| ==> (scored[i].rating.Some? <==> scored[i].score.Some?)
    ensures forall i :: 0 <= i < |kpis| && Scorable(kpis[i]) ==>
      scored[i].score == Some(Points(kpis[i].growth.value, rules.growth) + Points(kpis[i].ltvCac.value, rules.ltvCac))
    ensures forall i :: 0 <= i < |kpis| && scored[i].score.Some? ==>
      scored[i].score.value <= 10 && scored[i].rating.value == RatingOf(scored[i].score.value)
  {
    seq(|kpis|, i requires 0 <= i < |kpis| => ScoreRow(kpis[i], rules))
  }

  /** The shape of what `DataFrame.apply(..., axis=1)` returns for the
      scoring lambda as written. The lambda gives a two-element Series for a
      scored row and a plain two-element list for any other row, and pandas
      decides the shape from the first row's value alone: a Series makes a
      two-column frame, a list makes one column of per-row cells. */
  datatype ApplyShape = Frame(columns: nat) | Cells(length: nat)

  function AsWrittenApplyShape(kpis: seq<KpiRow>): (shape: ApplyShape)
    requires |kpis| > 0
    ensures shape.Frame? <==> Scorable(kpis[0])
    ensures shape.Frame? ==> shape.columns == 2
    ensures shape.Cells? ==> shape.length == |kpis|
  {
    if Scorable(kpis[0]) then Frame(2) else Cells(|kpis|)
  }

  /** Whether assigning that result to the two columns score and rating
      goes through: a frame needs two columns; a single column of cells is
      split along its length, which must then be 2. */
  predicate AssignableToTwoColumns(shape: ApplyShape) {
    match shape
    case Frame(n) => n == 2
    case Cells(n) => n == 2
  }

  /** Under the configured rules: 20% growth and an LTV/CAC ratio of 2
      score 5 + 3 = 8 and rate A; 10% growth and a ratio of 0.5 score 3 and
      rate C. */
  lemma DefaultRulesExample()
    ensures Total(0.2, 2.0, DefaultRules) == 8 && RatingOf(8) == A
    ensures Total(0.1, 0.5, DefaultRules) == 3 && RatingOf(3) == C
  {
  }
}
